=== FILE: README.md ===
# Sweep selection, purchase preparation, feed normalisation and display formatters

This project models the logic inside a small NFT "sweep" front end. The page polls a listings feed and shows the offers in a table. The user ticks tokens, and the page buys the ticked tokens through a marketplace client. Three pure pieces sit under the React shell, and each is modelled here over immutable sequences and strings:

- **Selection and purchase preparation** (`src/sweep.tsx`), in modules `Selection`, `Executor` and `Handlers`:
  - the checkbox toggle that maintains `selectedTokens` and `selectedTokenIds`;
  - the sweep total, a `reduce` over the live token list;
  - the currency options, which always include the native ETH entry;
  - the mixed-currency test that decides whether an `expectedPrice` guard is sent;
  - the Sweep and Buy click handlers;
  - `sweepTokens`, written as a state machine over what the progress slot shows (Idle → InProgress* → Succeeded | Failed, and back to InProgress if a snapshot arrives after settlement) and whether the purchase promise has settled. An abstract oracle drives it: a sequence of step snapshots, then resolve or reject.
- **Display formatters** (`src/CustomTable.tsx`), in module `Display`:
  - seller-address abbreviation and the seller-name fallback;
  - relative dates with the fixed two-hour correction. The clock is a parameter `now`, in milliseconds.
  - truncation to three decimals, over `real`.
- **Feed normalisation** (`src/db.ts`), in module `Feed`:
  - the unanchored OpenSea contract-address search;
  - the mapping from a listing to a token. The HTTP response is a parameter: `ok`, `status` and the decoded body.

`Common` holds `Option`/`Result`, the decimal rendering JavaScript's template literals give integers, and JavaScript's `slice` index rules. `Types` holds the token, currency and listing records. A listing keeps only the fields the token mapping reads and the three the table formats; the other feed fields (collection slug and name, price target, alert, collection floor) are not read by any modelled logic. `FeedToSweep` states what the sweep logic inherits from feed tokens.

Behaviour kept as the code has it, where a reader might expect otherwise:

- `extractContractAddress` returns `null` when nothing matches, not an empty string. Here that is `None`.
- `sweepTokens` calls the client through `getClient()?.`. With no client configured, it makes no call and sends no terminal message, yet still returns true. So a terminal message is sent only when a client exists.
- `onProgress` does not check whether the purchase has settled. A snapshot that arrives after settlement is still reported and replaces `Success` or `Error: …` in the slot (`Executor.LateSnapshotOverwritesSuccess`). `Executor.RunOracle` describes a client that reports all its snapshots before it settles. `Executor.SettlesOnce` covers any later events: there is still only one terminal message.
- The sweep total is filtered against the live list. The token list, the currency options and the mixed-currency test use the retained `selectedTokens` objects. `Handlers.StaleSelectionZeroGuard` shows the consequence: a refresh that drops every selected token leaves a single-currency sweep guarded by a price of zero.
- `handleBuyClick` toggles the token, so an already selected token becomes deselected. It then buys the token with no chain-id check and no currency test. Only the Sweep button checks for chain id 1.
- An unparsable list date gives NaN. Every comparison with NaN fails, so `formatDate` prints `"NaN days ago"`.
- The currency contract of a feed token is `""`. A selection of feed tokens is therefore never mixed, and always gets the ETH entry appended. Picking a feed token's currency in the picker selects a falsy value, so no currency override is sent.

## Model

| member | source | states |
|---|---|---|
| Feed.FindFrom | src/db.ts:5-7 | the unanchored search returns the first position from `i` at which the whole pattern matches, and none when no later position matches |
| Feed.ExtractContractAddress | src/db.ts:5-12 | the result is non-null iff some position holds the OpenSea asset prefix followed by `0x` and 40 hex digits of either case; a non-null result is those 42 characters at the leftmost such position |
| Feed.ExtractAtLeftmost | src/db.ts:6-10 | whenever `k` is the leftmost match, the extracted address is the text captured at `k` |
| Feed.ExtractIgnoresTrailingText | src/db.ts:6-10 | appending any text to a link that already matches leaves the extracted address unchanged, including a 41st hex digit |
| Feed.ExtractExample | src/db.ts:5-12 | a link with text before and after an asset URL yields the collection address |
| Feed.ListingToToken | src/db.ts:22-50 | the token id is the canonical decimal text of the listing's number: `0` alone or digits with no leading zero that decode back to the number, or `-` followed by digits without a leading zero for a negative number; the contract is exactly what the address extraction returns for the link, so it is present exactly when the link matches and is then the well-formed address at the leftmost match; price and coin carry over; the currency contract is empty and so differs from the zero address |
| Common.IntToStringInjective | src/db.ts:25 | the decimal text of an integer, as `toString()` renders it, determines the integer |
| Feed.ListingIdsInjective | src/db.ts:25 | two listings whose numbers render to the same token id have the same number, so distinct numbers never share an id |
| Feed.GetAllListings | src/db.ts:15-52 | a non-ok response fails with `HTTP error! status: <status>` and yields no tokens; otherwise the tokens are the mapped listings, the same number and in the same order |
| Feed.FeedCurrenciesEmpty | src/db.ts:34-36 | every token the feed produces has an empty currency contract and a non-empty token id |
| Display.FormatSellerAddress | src/CustomTable.tsx:8-10 | the result is the first `min(2,n)` characters, then `...`, then the last `min(4,n)` characters, so 9 characters whenever the address has at least 4 |
| Display.SellerLabel | src/CustomTable.tsx:125-126 | the seller cell shows the name exactly when the name is non-empty, else the abbreviated address |
| Display.DateBucket | src/CustomTable.tsx:12-31 | the nested whole-minute, whole-hour and whole-day computation picks exactly one bucket: seconds iff diff < 60, minutes iff 60 ≤ diff < 3600, hours iff 3600 ≤ diff < 86400, days otherwise; its count is diff divided by the bucket's unit; an invalid date gives the NaN case |
| Display.BucketCount | src/CustomTable.tsx:18-30 | minutes lie in [1,59] and hours in [1,23]; days are at least 1; outside the seconds bucket the count is the number of whole units elapsed |
| Display.FormatDate | src/CustomTable.tsx:12-31 | after adding 2 hours to the list date, the text is `<diff> seconds ago`, `<diff/60> minutes ago`, `<diff/3600> hours ago` or `<diff/86400> days ago` by range, and `NaN days ago` for an invalid date |
| Display.FormatDateMinutesExample | src/CustomTable.tsx:21-23 | a listing 90 s old (after the 2-hour correction) reads `1 minutes ago` |
| Display.FormatDateHoursExample | src/CustomTable.tsx:25-27 | a listing 3661 s old reads `1 hours ago` |
| Display.FormatDateFutureExample | src/CustomTable.tsx:16-19 | a listing 5 s in the future reads `-5 seconds ago` rather than raising an error |
| Display.TruncateToTwoDecimals | src/CustomTable.tsx:33-35 | the result is a whole number of thousandths, at most the input, and less than a thousandth below it |
| Display.TruncateIsGreatest | src/CustomTable.tsx:33-35 | no number of thousandths at or below the input exceeds the truncation |
| Display.TruncateUnique | src/CustomTable.tsx:33-35 | any number of thousandths within a thousandth below the input equals its truncation |
| Display.TruncateIdempotent | src/CustomTable.tsx:33-35 | truncating twice gives the same as truncating once |
| Display.TruncateExamples | src/CustomTable.tsx:33-35 | 1.23456 truncates to 1.234 and 0.9999 to 0.999 |
| Selection.RemoveId | src/sweep.tsx:159-162 | the filtered selection holds exactly the entries whose id differs; one entry is removed for each occurrence of the id |
| Selection.RemoveIdConcat | src/sweep.tsx:160-162 | filtering distributes over concatenation, so kept entries keep their relative order |
| Selection.RemoveIdAbsent | src/sweep.tsx:160-162 | filtering out an id that no entry carries returns the selection unchanged |
| Selection.Toggle | src/sweep.tsx:152-166 | if the token's id is already selected, every entry with that id is removed; otherwise the token is appended; the toggled id's presence flips and every other id's presence is unchanged |
| Selection.ToggleFlips | src/sweep.tsx:156-165 | one toggle changes the presence of exactly the toggled id |
| Selection.ToggleTwice | src/sweep.tsx:152-166 | toggling an unselected token twice restores the original selection exactly |
| Selection.ToggleParity | src/sweep.tsx:152-166 | after any sequence of toggles an id is selected iff its initial presence differs from the parity of the number of times it was toggled |
| Selection.ToggleFromEmpty | src/sweep.tsx:152-166 | starting from no selection, the selected ids are exactly those toggled an odd number of times |
| Selection.RemoveIdKeepsDistinct | src/sweep.tsx:160-162 | filtering keeps a selection free of repeated ids |
| Selection.ToggleKeepsDistinct | src/sweep.tsx:152-166 | the toggle never lets two selected entries share an id |
| Selection.SelectedIds | src/sweep.tsx:168-174 | an id is listed iff it is non-empty and some selected entry carries it; when every entry has a non-empty id there is one id per entry |
| Selection.HandleOnChange | src/sweep.tsx:152-175 | the new selection is the toggle of the old one, the id list is rebuilt from it in order, and a non-empty toggled id is listed iff it was not selected before |
| Selection.SweepTotal | src/sweep.tsx:198-211 | the reduction over the live list equals the sum of the prices of live tokens whose id is selected; the truthiness test on the price changes nothing |
| Selection.SelectedSumEmpty | src/sweep.tsx:198-210 | an empty selection totals 0 |
| Selection.SelectedSumIgnoresUnlisted | src/sweep.tsx:199-208 | selecting an id that no live token carries leaves the total unchanged |
| Selection.SelectedSumStale | src/sweep.tsx:199-208 | when no live token carries a selected id, the total is 0 |
| Selection.CurrencyOptions | src/sweep.tsx:214-229 | the options always include a zero-address contract; the first n are the selected tokens' currencies in selection order; the ETH entry is appended exactly when no selected currency has the zero address, so the length is n or n+1 |
| Selection.MixedIffTwoContracts | src/sweep.tsx:266-275 | being mixed (some contract differs from the first token's) is the same as some two selected tokens having different currency contracts |
| Selection.MixedCurrencies | src/sweep.tsx:266-280 | the pass over the selection sets the flag iff some selected token's currency contract differs from the first's, and builds one `{tokenId, contract}` per token in order |
| Executor.FirstIncomplete | src/sweep.tsx:71-73 | the index found is the first item with status incomplete |
| Executor.FirstActive | src/sweep.tsx:67-69 | the step found is the first with an incomplete item, and there is none exactly when no step has one |
| Executor.ProgressMessage | src/sweep.tsx:63-82 | no message for null steps or when no step has an incomplete item; otherwise the first such step gives `<action> (k/n)` with k one past the first incomplete item, 1 ≤ k ≤ n, or `""` for an empty action |
| Executor.ProgressExample | src/sweep.tsx:70-80 | `Confirm` with items complete, incomplete, incomplete reports `Confirm (2/3)` |
| Executor.ProgressSilentWhenDone | src/sweep.tsx:67-70 | a snapshot whose items are all complete reports nothing |
| Executor.Next | src/sweep.tsx:63-89 | a snapshot is reported whether or not the promise has settled, shows its message and never changes settlement; a settlement calls the page with `Success` or `Error: <message>` and settles the call only the first time, and changes nothing later; the slot never returns to Idle |
| Executor.RunSnapshots | src/sweep.tsx:63-89 | from an unsettled state, snapshots then settlement report the snapshots' progress messages and then the terminal text, and end Succeeded or Failed to match the outcome |
| Executor.RunOracle | src/sweep.tsx:63-89 | a client call ends settled with exactly one terminal callback; it is the last and reads `Success` iff the purchase resolved or `Error: <message>` if it rejected; all earlier callbacks are progress reports |
| Executor.SettlesOnce | src/sweep.tsx:83-89 | after settlement no later event makes a second terminal callback, and the call stays settled |
| Executor.LateSnapshotOverwritesSuccess | src/sweep.tsx:63-89 | a snapshot with an active step arriving after `Success` is still reported and replaces `Success` in the slot |
| Executor.SweepTokens | src/sweep.tsx:15-96 | with no signer it fails with `ReferenceError("Missing a signer")` before any client call; otherwise it returns true; `options.currency` is set iff the override is non-empty; tokens and expected price pass unchanged; with a client the callbacks are the progress messages of the client's snapshots, in order, followed by exactly one terminal callback, and the call ends settled |
| Handlers.SweepClick | src/sweep.tsx:251-291 | disabled iff nothing is selected; on a chain other than 1 it alerts and starts nothing; otherwise the guard is absent iff the selection is mixed, else it equals the live sweep total; the token list follows the selection; the signer already held is passed on |
| Handlers.HandleBuyClick | src/sweep.tsx:117-141 | when not connected it only connects; otherwise it toggles the token (a selected token becomes deselected) and buys that token alone with its own price as the guard |
| Handlers.StaleSelectionZeroGuard | src/sweep.tsx:198-211 | when a refresh has dropped every selected token, the total sent as the guard is 0 whatever was selected |
| FeedToSweep.FeedSelectionNeverMixed | src/db.ts:34-36 | a selection of feed tokens is never mixed, always gets the ETH entry appended, and records one id per token |
| FeedToSweep.FeedCurrencyChoiceIgnored | src/db.ts:34-36 | picking a feed token's currency option sends the purchase without a currency override |

## Left out

- React rendering, JSX, styles and hook wiring (`useState`, `useEffect`), and the client and provider setup in `src/App.tsx`. These are presentation and framework glue.
- The table row layout in `src/CustomTable.tsx`. Only the seller-cell fallback and the formatters it calls are modelled.
- The polling timer (`setInterval` at src/sweep.tsx:188-190) and the ordering of overlapping fetches. This is asynchronous scheduling. Each refresh appears only as a new `live` list.
- All HTTP I/O: `fetch` and `response.json()` in `src/db.ts`, and the plumbing in `src/lib/db.js`, `src/hooks/useListings.js` and `src/api/listings.js`. The response is a parameter; a body that fails to decode is not modelled.
- `src/getListings.ts` passes its result through and ignores its `collection` argument. Only its `Token` shape is used. `src/types.ts` is data shape only.
- The wallet library and the marketplace client's `buyToken` internals. `buyToken` is only an oracle of step snapshots followed by resolve or reject. A synchronous throw from it, caught and rethrown at src/sweep.tsx:92-95, is not modelled.
- Handlers.SweepClick: connecting the wallet is only reported, through `connectFirst`. The empty write to the progress text before the purchase is not modelled. The rejected promise after a missing-signer throw appears only as the `Failure` result.
- The hard-coded base64 image overwrite at src/sweep.tsx:144-149. It is a debug mutation with no logic.
- Feed.ListingToToken: the token's `name`, `description` and `image` fields are not kept. They are constants or unused here. The currency is kept with the `""` name and `0` decimals the code writes.
- Feed.ListingToToken: the numeric token id is an unbounded integer, rendered digit by digit. A JavaScript number renders differently in two bands: from 2^53 up, `toString` prints the shortest decimal that reads back to the same double (2^60 prints as `1152921504606847000`), and from 1e21 up it uses exponent notation. A non-integer id such as `12.5` cannot be represented at all.
- Display.FormatDate: the text-to-date parsing is abstracted to an optional millisecond timestamp. `setHours(+2)` is a fixed 7,200,000 ms, with no local-time or daylight-saving effects.
- Display.FormatSellerAddress: JavaScript's `slice` counts UTF-16 code units, while a Dafny string counts Unicode scalar values. The two differ only for characters outside the Basic Multilingual Plane, which a hex address never contains.
- Display.TruncateToTwoDecimals: computed over exact reals, not IEEE-754 doubles, so binary rounding of `num * 1000` is not modelled. The sweep total is a sum of reals for the same reason.
- A price of NaN, which the truthiness test in the sweep total would also skip, is not modelled. Prices are reals.

=== FILE: common.dfy ===
/**
 * Small building blocks shared by the rest of the model: optional values,
 * success/failure results, JavaScript's decimal rendering of integers and
 * JavaScript's `String.prototype.slice` index rules.
 */
module Common {

  /** A JavaScript value that may be `null` or `undefined`. */
  datatype Option<+T> = None | Some(value: T)

  /** The outcome of an operation that can throw: a value, or the thrown error. */
  datatype Result<+T, +E> = Success(value: T) | Failure(error: E)

  function Min(a: int, b: int): int
  {
    if a <= b then a else b
  }

  predicate IsDigit(c: char)
  {
    '0' <= c <= '9'
  }

  predicate AllDigits(s: string)
  {
    forall i :: 0 <= i < |s| ==> IsDigit(s[i])
  }

  function DigitChar(d: nat): (c: char)
    requires d < 10
    ensures IsDigit(c)
  {
    "0123456789"[d]
  }

  function DigitValue(c: char): (d: nat)
    requires IsDigit(c)
    ensures d < 10
  {
    (c - '0') as nat
  }

  /**
   * The decimal digits of `n` as JavaScript's template literal `${n}` renders
   * a non-negative integer: no sign, no leading zero (except for 0 itself).
   */
  function NatToString(n: nat): (r: string)
    ensures 1 <= |r|
    ensures AllDigits(r)
    ensures r[0] == '0' ==> n == 0 && r == "0"
    decreases n
  {
    if n < 10 then [DigitChar(n)] else NatToString(n / 10) + [DigitChar(n % 10)]
  }

  /** Reads a string of decimal digits back as a number; the inverse of `NatToString`. */
  function ParseNat(s: string): nat
    requires AllDigits(s)
  {
    if s == [] then 0 else ParseNat(s[..|s| - 1]) * 10 + DigitValue(s[|s| - 1])
  }

  lemma {:induction false} NatToStringRoundTrip(n: nat)
    ensures ParseNat(NatToString(n)) == n
    decreases n
  {
    if n >= 10 {
      var s := NatToString(n);
      assert s[..|s| - 1] == NatToString(n / 10);
      assert DigitValue(DigitChar(n % 10)) == n % 10;
      NatToStringRoundTrip(n / 10);
    }
  }

  /** Distinct numbers render as distinct strings. */
  lemma NatToStringInjective(m: nat, n: nat)
    requires NatToString(m) == NatToString(n)
    ensures m == n
  {
    NatToStringRoundTrip(m);
    NatToStringRoundTrip(n);
  }

  /** `${i}` for an integer: a leading '-' for negative values. */
  function IntToString(i: int): (r: string)
    ensures i < 0 <==> (|r| > 0 && r[0] == '-')
    ensures i >= 0 ==> r == NatToString(i)
    ensures i < 0 ==> r[1..] == NatToString(-i) && r[1] != '0'
  {
    if i < 0 then "-" + NatToString(-i) else NatToString(i)
  }

  /** Distinct integers render as distinct strings. */
  lemma IntToStringInjective(i: int, j: int)
    requires IntToString(i) == IntToString(j)
    ensures i == j
  {
    if i >= 0 && j >= 0 {
      NatToStringInjective(i, j);
    } else if i < 0 && j < 0 {
      NatToStringInjective(-i, -j);
    } else {
      // One rendering starts with '-', the other with a digit.
      assert false;
    }
  }

  /**
   * JavaScript's normalisation of a `slice` index against a length: a negative
   * index counts from the end, and the result is clamped to [0, len].
   */
  function JsIndex(len: nat, k: int): (r: nat)
    ensures r <= len
    ensures 0 <= k <= len ==> r == k
    ensures 0 - len as int <= k < 0 ==> r == len + k
  {
    if k < 0 then (if len + k < 0 then 0 else len + k)
    else if k > len then len
    else k
  }

  /** `s.slice(start, end)`: empty when the normalised end precedes the start. */
  function JsSlice<T>(s: seq<T>, start: int, end: int): seq<T>
  {
    var b := JsIndex(|s|, start);
    var e := JsIndex(|s|, end);
    if e <= b then [] else s[b..e]
  }

  /** `s.slice(start)`: everything from the normalised start to the end. */
  function JsSliceFrom<T>(s: seq<T>, start: int): seq<T>
  {
    s[JsIndex(|s|, start)..]
  }
}

=== FILE: display.dfy ===
/**
 * The display formatters of the listings table (src/CustomTable.tsx): seller
 * abbreviation, relative list dates and three-decimal truncation. The clock is
 * a parameter (`now`, in milliseconds since the epoch) and prices are reals.
 */
module Display {
  import opened Common

  /** `formatSellerAddress`: the first two characters, "...", and the last four. */
  function FormatSellerAddress(address: string): (r: string)
    ensures |r| == Min(2, |address|) + 3 + Min(4, |address|)
    ensures r[..Min(2, |address|)] == address[..Min(2, |address|)]
    ensures r[Min(2, |address|)..Min(2, |address|) + 3] == "..."
    ensures r[Min(2, |address|) + 3..] == address[|address| - Min(4, |address|)..]
    ensures |address| >= 4 ==> |r| == 9
  {
    JsSlice(address, 0, 2) + "..." + JsSliceFrom(address, -4)
  }

  /**
   * The seller cell of a row: the seller's name when the feed gave a non-empty
   * one, else the abbreviated address.
   */
  function SellerLabel(sellername: string, selleraddress: string): (r: string)
    ensures r == sellername <==> sellername != ""
    ensures sellername == "" ==> r == FormatSellerAddress(selleraddress)
  {
    if sellername != "" then sellername else FormatSellerAddress(selleraddress)
  }

  /** The fixed correction `setHours(getHours() + 2)` applies to every list date. */
  const SkewMillis: int := 2 * 60 * 60 * 1000

  /**
   * `Math.floor((now - date) / 1000)` after the correction. Dafny's `/` with a
   * positive divisor rounds toward negative infinity, as `Math.floor` does.
   */
  function DiffInSeconds(listdate: int, now: int): int
  {
    (now - (listdate + SkewMillis)) / 1000
  }

  /** The unit a relative date is reported in, with its count. */
  datatype Bucket =
    | SecondsAgo(n: int)
    | MinutesAgo(n: int)
    | HoursAgo(n: int)
    | DaysAgo(n: int)
    /** An unparsable date: every comparison with NaN is false, so the days branch prints "NaN". */
    | NotANumber

  /**
   * Seconds per unit of a bucket. The value for `NotANumber` is arbitrary:
   * there is no count in that case, and it is only read for the others.
   */
  function UnitSeconds(b: Bucket): nat
  {
    match b
    case SecondsAgo(_) => 1
    case MinutesAgo(_) => 60
    case HoursAgo(_) => 3600
    case DaysAgo(_) => 86400
    case NotANumber => 1
  }

  /** Whole minutes of whole seconds, then whole hours of those, are whole hours of the seconds. */
  lemma HoursOfMinutes(s: int)
    requires s >= 0
    ensures s / 60 / 60 == s / 3600
  {
    var q := s / 3600;
    var m := s % 3600;
    assert s == 3600 * q + m;
    assert s / 60 == 60 * q + m / 60;
  }

  lemma DaysOfHours(s: int)
    requires s >= 0
    ensures s / 3600 / 24 == s / 86400
  {
    var q := s / 86400;
    var m := s % 86400;
    assert s == 86400 * q + m;
    assert s / 3600 == 24 * q + m / 3600;
  }

  /**
   * The branch `formatDate` takes, computed exactly as the source does: whole
   * minutes from whole seconds, whole hours from whole minutes, whole days from
   * whole hours. Its contract gives the same buckets directly in seconds.
   */
  function DateBucket(listdate: Option<int>, now: int): (b: Bucket)
    ensures listdate.None? <==> b.NotANumber?
    ensures listdate.Some? ==>
              var d := DiffInSeconds(listdate.value, now);
              && (b.SecondsAgo? <==> d < 60)
              && (b.MinutesAgo? <==> 60 <= d < 3600)
              && (b.HoursAgo? <==> 3600 <= d < 86400)
              && (b.DaysAgo? <==> 86400 <= d)
              && (!b.NotANumber? ==> b.n == d / UnitSeconds(b))
  {
    match listdate
    case None => NotANumber
    case Some(date) =>
      var diffInSeconds := DiffInSeconds(date, now);
      if diffInSeconds < 60 then SecondsAgo(diffInSeconds)
      else
        var diffInMinutes := diffInSeconds / 60;
        if diffInMinutes < 60 then MinutesAgo(diffInMinutes)
        else
          HoursOfMinutes(diffInSeconds);
          var diffInHours := diffInMinutes / 60;
          if diffInHours < 24 then HoursAgo(diffInHours)
          else
            DaysOfHours(diffInSeconds);
            DaysAgo(diffInHours / 24)
  }

  /**
   * Outside the seconds bucket the count is the number of whole units elapsed:
   * minutes lie in [1, 59], hours in [1, 23], days are at least 1.
   */
  lemma BucketCount(listdate: int, now: int)
    ensures var b := DateBucket(Some(listdate), now);
            var d := DiffInSeconds(listdate, now);
            && (b.SecondsAgo? ==> b.n == d && b.n < 60)
            && (b.MinutesAgo? ==> 1 <= b.n <= 59)
            && (b.HoursAgo? ==> 1 <= b.n <= 23)
            && (b.DaysAgo? ==> 1 <= b.n)
            && (!b.SecondsAgo? ==> UnitSeconds(b) * b.n <= d < UnitSeconds(b) * (b.n + 1))
  {
  }

  function Render(b: Bucket): string
  {
    match b
    case SecondsAgo(n) => IntToString(n) + " seconds ago"
    case MinutesAgo(n) => IntToString(n) + " minutes ago"
    case HoursAgo(n) => IntToString(n) + " hours ago"
    case DaysAgo(n) => IntToString(n) + " days ago"
    case NotANumber => "NaN days ago"
  }

  /**
   * `formatDate`: the relative age of a listing, after adding two hours to its
   * timestamp. Exactly one bucket applies; a future date reads as a negative
   * number of seconds rather than an error.
   */
  function FormatDate(listdate: Option<int>, now: int): (r: string)
    ensures listdate.None? ==> r == "NaN days ago"
    ensures listdate.Some? ==>
              var d := DiffInSeconds(listdate.value, now);
              && (d < 60 ==> r == IntToString(d) + " seconds ago")
              && (60 <= d < 3600 ==> r == NatToString(d / 60) + " minutes ago")
              && (3600 <= d < 86400 ==> r == NatToString(d / 3600) + " hours ago")
              && (86400 <= d ==> r == NatToString(d / 86400) + " days ago")
  {
    Render(DateBucket(listdate, now))
  }

  /** 90 seconds after the corrected date reads as one minute. */
  lemma FormatDateMinutesExample(now: int)
    ensures FormatDate(Some(now - SkewMillis - 90_000), now) == "1 minutes ago"
  {
    assert DiffInSeconds(now - SkewMillis - 90_000, now) == 90;
    assert DateBucket(Some(now - SkewMillis - 90_000), now) == MinutesAgo(1);
    assert IntToString(1) == "1";
  }

  /** 3661 seconds after the corrected date reads as one hour. */
  lemma FormatDateHoursExample(now: int)
    ensures FormatDate(Some(now - SkewMillis - 3_661_000), now) == "1 hours ago"
  {
    assert DiffInSeconds(now - SkewMillis - 3_661_000, now) == 3661;
    assert DateBucket(Some(now - SkewMillis - 3_661_000), now) == HoursAgo(1);
    assert IntToString(1) == "1";
  }

  /** A listing dated 5 seconds in the future reads as a negative count, not an error. */
  lemma FormatDateFutureExample(now: int)
    ensures FormatDate(Some(now - SkewMillis + 5_000), now) == "-5 seconds ago"
  {
    assert DiffInSeconds(now - SkewMillis + 5_000, now) == -5;
    assert DateBucket(Some(now - SkewMillis + 5_000), now) == SecondsAgo(-5);
    assert IntToString(-5) == "-5";
  }

  /** The result has at most three decimals: it is a whole number of thousandths. */
  predicate IsThousandths(r: real)
  {
    (r * 1000.0).Floor as real == r * 1000.0
  }

  /**
   * `truncateToTwoDecimals`, which despite its name keeps three decimals:
   * `Math.floor(num * 1000) / 1000`, idealised over the reals.
   */
  function TruncateToTwoDecimals(x: real): (r: real)
    ensures IsThousandths(r)
    ensures r <= x < r + 0.001
  {
    (x * 1000.0).Floor as real / 1000.0
  }

  /** The truncation is the largest number of thousandths not above its input. */
  lemma TruncateIsGreatest(x: real, q: real)
    requires IsThousandths(q) && q <= x
    ensures q <= TruncateToTwoDecimals(x)
  {
    var k := (q * 1000.0).Floor;
    assert k as real <= x * 1000.0;
    assert k <= (x * 1000.0).Floor;
  }

  /** Any number of thousandths within a thousandth below `x` is its truncation. */
  lemma TruncateUnique(x: real, q: real)
    requires IsThousandths(q) && q <= x < q + 0.001
    ensures TruncateToTwoDecimals(x) == q
  {
    var r := TruncateToTwoDecimals(x);
    TruncateIsGreatest(x, q);
    var kq := (q * 1000.0).Floor;
    var kr := (r * 1000.0).Floor;
    assert kq as real == q * 1000.0;
    assert kr as real == r * 1000.0;
    assert r * 1000.0 <= x * 1000.0 < q * 1000.0 + 1.0;
    assert kr < kq + 1;
    assert kq <= kr;
    assert r * 1000.0 == q * 1000.0;
  }

  lemma TruncateIdempotent(x: real)
    ensures TruncateToTwoDecimals(TruncateToTwoDecimals(x)) == TruncateToTwoDecimals(x)
  {
    var r := TruncateToTwoDecimals(x);
    TruncateUnique(r, r);
  }

  lemma TruncateExamples()
    ensures TruncateToTwoDecimals(1.23456) == 1.234
    ensures TruncateToTwoDecimals(0.9999) == 0.999
  {
    assert (1234.0).Floor == 1234;
    TruncateUnique(1.23456, 1.234);
    assert (999.0).Floor == 999;
    TruncateUnique(0.9999, 0.999);
  }
}

=== FILE: executor.dfy ===
/**
 * `sweepTokens` (src/sweep.tsx) as a state machine over one purchase. The marketplace
 * client's `buyToken` is an oracle: a sequence of step snapshots, each handed
 * to `onProgress`, followed by the promise resolving or rejecting.
 */
module Executor {
  import opened Common
  import opened Types

  datatype ItemStatus = Incomplete | Complete

  datatype StepItem = StepItem(status: ItemStatus)

  /** One step of the purchase; `items` may be absent. */
  datatype Step = Step(action: string, items: Option<seq<StepItem>>)

  predicate HasIncomplete(items: seq<StepItem>)
  {
    exists i :: 0 <= i < |items| && items[i].status == Incomplete
  }

  /** A step that still has an incomplete item. */
  predicate IsActive(step: Step)
  {
    step.items.Some? && HasIncomplete(step.items.value)
  }

  /** `items.findIndex(item => item.status === "incomplete")`. */
  function FirstIncomplete(items: seq<StepItem>): (k: nat)
    requires HasIncomplete(items)
    ensures k < |items| && items[k].status == Incomplete
    ensures forall j :: 0 <= j < k ==> items[j].status != Incomplete
  {
    if items[0].status == Incomplete then 0
    else
      assert HasIncomplete(items[1..]) by {
        var i :| 0 <= i < |items| && items[i].status == Incomplete;
        assert items[1..][i - 1] == items[i];
      }
      1 + FirstIncomplete(items[1..])
  }

  /** The index of `steps.find(step => step.items?.find(incomplete))`. */
  function FirstActive(steps: seq<Step>): (r: Option<nat>)
    ensures r.Some? <==> exists i :: 0 <= i < |steps| && IsActive(steps[i])
    ensures r.Some? ==> r.value < |steps| && IsActive(steps[r.value])
    ensures r.Some? ==> forall j :: 0 <= j < r.value ==> !IsActive(steps[j])
  {
    if steps == [] then None
    else if IsActive(steps[0]) then Some(0)
    else
      var rest := FirstActive(steps[1..]);
      assert forall i :: 0 < i < |steps| ==> steps[1..][i - 1] == steps[i];
      match rest
      case None => None
      case Some(k) => Some(k + 1)
  }

  /** `"<action> (k/n)"`. */
  function StepLabel(action: string, k: nat, n: nat): string
  {
    action + " (" + NatToString(k) + "/" + NatToString(n) + ")"
  }

  /**
   * The text `onProgress` hands to the page for one snapshot, if any: nothing
   * for a null snapshot or one with no active step; otherwise the first active
   * step's action with the 1-based position of its first incomplete item and
   * its item count, or the empty string when the action is empty.
   */
  function ProgressMessage(steps: Option<seq<Step>>): (m: Option<string>)
    ensures m.Some? <==> steps.Some? && exists i :: 0 <= i < |steps.value| && IsActive(steps.value[i])
    ensures m.Some? ==>
              exists i :: && 0 <= i < |steps.value| && IsActive(steps.value[i])
                          && (forall j :: 0 <= j < i ==> !IsActive(steps.value[j]))
                          && var step := steps.value[i];
                             var k := FirstIncomplete(step.items.value) + 1;
                             && 1 <= k <= |step.items.value|
                             && (forall j :: 0 <= j < k - 1 ==> step.items.value[j].status != Incomplete)
                             && step.items.value[k - 1].status == Incomplete
                             && m.value == (if step.action == "" then "" else StepLabel(step.action, k, |step.items.value|))
  {
    match steps
    case None => None
    case Some(ss) =>
      match FirstActive(ss)
      case None => None
      case Some(i) =>
        var step := ss[i];
        var items := step.items.value;
        var progress := FirstIncomplete(items);
        Some(if step.action == "" then "" else StepLabel(step.action, progress + 1, |items|))
  }

  lemma ProgressExample()
    ensures ProgressMessage(Some([Step("Confirm", Some([StepItem(Complete), StepItem(Incomplete), StepItem(Incomplete)]))]))
            == Some("Confirm (2/3)")
  {
    var items := [StepItem(Complete), StepItem(Incomplete), StepItem(Incomplete)];
    var step := Step("Confirm", Some(items));
    assert items[1].status == Incomplete;
    assert FirstIncomplete(items) == 1 by {
      assert items[1..][0].status == Incomplete;
    }
    assert IsActive(step);
    assert FirstActive([step]) == Some(0);
    assert NatToString(2) == "2" && NatToString(3) == "3";
    assert StepLabel("Confirm", 2, 3) == "Confirm (2/3)";
  }

  /** A snapshot whose steps are all finished reports nothing. */
  lemma ProgressSilentWhenDone(steps: seq<Step>)
    requires forall i :: 0 <= i < |steps| ==> steps[i].items.Some? ==> forall j :: 0 <= j < |steps[i].items.value| ==> steps[i].items.value[j].status == Complete
    ensures ProgressMessage(Some(steps)) == None
  {
  }

  /** How the purchase promise settles. */
  datatype Outcome = Resolve | Reject(message: string)

  /** The client's behaviour for one call: progress snapshots, then settlement. */
  datatype BuyOracle = BuyOracle(snapshots: seq<Option<seq<Step>>>, outcome: Outcome)

  /** What the page's progress slot last showed. */
  datatype Phase = Idle | InProgress(text: string) | Succeeded | Failed(message: string)
  {
    /** The slot shows the text of a settlement. */
    predicate Terminal() { Succeeded? || Failed? }
  }

  /**
   * The state of one call: what the slot shows, and whether the purchase
   * promise has settled. A promise settles at most once, but nothing in
   * `onProgress` looks at it, so a snapshot that arrives late is still shown.
   */
  datatype Machine = Machine(shown: Phase, settled: bool)

  const Start := Machine(Idle, false)

  /** One call of the progress callback; `settles` marks the terminal one. */
  datatype Callback = Callback(text: string, settles: bool)

  datatype Event = Progress(steps: Option<seq<Step>>) | Settle(outcome: Outcome)

  function TerminalText(o: Outcome): string
  {
    match o
    case Resolve => "Success"
    case Reject(message) => "Error: " + message
  }

  /** The slot after the `then` or `catch` handler for an outcome. */
  function SettledPhase(o: Outcome): (p: Phase)
    ensures p.Terminal() && (p == Succeeded <==> o == Resolve)
  {
    match o
    case Resolve => Succeeded
    case Reject(message) => Failed(message)
  }

  /** The progress callback `onProgress` makes for one snapshot, if any. */
  function ProgressCallback(steps: Option<seq<Step>>): Option<Callback>
  {
    match ProgressMessage(steps)
    case None => None
    case Some(m) => Some(Callback(m, false))
  }

  /** The state after an event, and the callback the event caused, if any. */
  datatype Transition = Transition(machine: Machine, callback: Option<Callback>)

  /**
   * One transition. A snapshot is reported whether or not the promise has
   * settled; a settlement runs `then` or `catch` only the first time.
   */
  function Next(m: Machine, e: Event): (r: Transition)
    ensures r.callback.Some? ==> (r.callback.value.settles <==> e.Settle?)
    ensures e.Settle? ==> (r.callback.Some? <==> !m.settled)
    ensures e.Settle? && !m.settled ==>
              r == Transition(Machine(SettledPhase(e.outcome), true), Some(Callback(TerminalText(e.outcome), true)))
    ensures e.Settle? && m.settled ==> r == Transition(m, None)
    ensures e.Progress? ==> r.machine.settled == m.settled && r.callback == ProgressCallback(e.steps)
    ensures e.Progress? && r.callback.Some? ==> r.machine.shown == InProgress(r.callback.value.text)
    ensures e.Progress? && r.callback.None? ==> r.machine == m
    ensures m.settled ==> r.machine.settled
    ensures r.machine.shown == Idle ==> m.shown == Idle
  {
    match e
    case Progress(steps) =>
      (match ProgressMessage(steps)
       case None => Transition(m, None)
       case Some(text) => Transition(Machine(InProgress(text), m.settled), Some(Callback(text, false))))
    case Settle(o) =>
      if m.settled then Transition(m, None)
      else Transition(Machine(SettledPhase(o), true), Some(Callback(TerminalText(o), true)))
  }

  /** The state reached by a sequence of events, and the callbacks made on the way. */
  datatype Trace = Trace(final: Machine, callbacks: seq<Callback>)

  function Emitted(c: Option<Callback>): seq<Callback>
  {
    match c
    case None => []
    case Some(x) => [x]
  }

  /** Feeds the events through `Next`, collecting the callbacks made. */
  function Run(m: Machine, events: seq<Event>): Trace
    decreases |events|
  {
    if events == [] then Trace(m, [])
    else
      var t := Next(m, events[0]);
      var rest := Run(t.machine, events[1..]);
      Trace(rest.final, Emitted(t.callback) + rest.callbacks)
  }

  function ProgressEvents(snapshots: seq<Option<seq<Step>>>): (es: seq<Event>)
    ensures |es| == |snapshots|
  {
    if snapshots == [] then [] else [Progress(snapshots[0])] + ProgressEvents(snapshots[1..])
  }

  /** The events a call to the client produces: its snapshots, then its settlement. */
  function Events(o: BuyOracle): seq<Event>
  {
    ProgressEvents(o.snapshots) + [Settle(o.outcome)]
  }

  /** The progress callbacks a sequence of snapshots causes, skipping silent ones. */
  function ProgressTexts(snapshots: seq<Option<seq<Step>>>): seq<Callback>
  {
    if snapshots == [] then []
    else Emitted(ProgressCallback(snapshots[0])) + ProgressTexts(snapshots[1..])
  }

  function SettlingCount(cs: seq<Callback>): nat
  {
    if cs == [] then 0 else (if cs[0].settles then 1 else 0) + SettlingCount(cs[1..])
  }

  lemma {:induction false} SettlingCountConcat(a: seq<Callback>, b: seq<Callback>)
    ensures SettlingCount(a + b) == SettlingCount(a) + SettlingCount(b)
  {
    if a == [] {
      assert a + b == b;
    } else {
      assert (a + b)[0] == a[0];
      assert (a + b)[1..] == a[1..] + b;
      SettlingCountConcat(a[1..], b);
    }
  }

  lemma {:induction false} ProgressTextsNeverSettle(snapshots: seq<Option<seq<Step>>>)
    ensures SettlingCount(ProgressTexts(snapshots)) == 0
  {
    if snapshots != [] {
      var head := Emitted(ProgressCallback(snapshots[0]));
      ProgressTextsNeverSettle(snapshots[1..]);
      SettlingCountConcat(head, ProgressTexts(snapshots[1..]));
    }
  }

  /** Running a non-empty event sequence: the first transition, then the rest. */
  lemma RunCons(m: Machine, e: Event, rest: seq<Event>)
    ensures var t := Next(m, e);
            Run(m, [e] + rest) == Trace(Run(t.machine, rest).final, Emitted(t.callback) + Run(t.machine, rest).callbacks)
  {
    assert ([e] + rest)[0] == e;
    assert ([e] + rest)[1..] == rest;
  }

  /**
   * From an unsettled state, a run of snapshots followed by settlement makes
   * the progress callbacks and then exactly the terminal one, and settles.
   */
  lemma {:induction false} RunSnapshots(m: Machine, snapshots: seq<Option<seq<Step>>>, o: Outcome)
    requires !m.settled
    ensures Run(m, ProgressEvents(snapshots) + [Settle(o)])
            == Trace(Machine(SettledPhase(o), true), ProgressTexts(snapshots) + [Callback(TerminalText(o), true)])
    decreases |snapshots|
  {
    var es := ProgressEvents(snapshots) + [Settle(o)];
    var last := Callback(TerminalText(o), true);
    if snapshots == [] {
      assert es == [Settle(o)];
      assert es[1..] == [];
    } else {
      var e := Progress(snapshots[0]);
      var rest := ProgressEvents(snapshots[1..]) + [Settle(o)];
      assert es == [e] + rest by {
        assert es[0] == e;
        assert es[1..] == rest;
      }
      var t := Next(m, e);
      RunSnapshots(t.machine, snapshots[1..], o);
      RunCons(m, e, rest);
      var head := Emitted(t.callback);
      var tail := ProgressTexts(snapshots[1..]);
      assert head + (tail + [last]) == (head + tail) + [last];
    }
  }

  /**
   * A trace that ends settled, showing a settlement, with exactly one terminal
   * callback, which is the last callback and carries the outcome's text.
   */
  predicate EndsWithOneTerminal(t: Trace, o: Outcome)
  {
    && t.final.settled && t.final.shown.Terminal()
    && |t.callbacks| >= 1 && SettlingCount(t.callbacks) == 1
    && t.callbacks[|t.callbacks| - 1] == Callback(TerminalText(o), true)
  }

  /**
   * A client call ends settled, with exactly one terminal callback, and it is
   * the last: "Success" exactly when the purchase resolved, "Error: <message>"
   * when it rejected. Every earlier callback is a progress report.
   */
  lemma RunOracle(o: BuyOracle)
    ensures EndsWithOneTerminal(Run(Start, Events(o)), o.outcome)
    ensures Run(Start, Events(o)).final.shown == Succeeded <==> o.outcome == Resolve
    ensures var cs := Run(Start, Events(o)).callbacks;
            |cs| >= 1 && cs[..|cs| - 1] == ProgressTexts(o.snapshots)
  {
    RunSnapshots(Start, o.snapshots, o.outcome);
    var pts := ProgressTexts(o.snapshots);
    var last := Callback(TerminalText(o.outcome), true);
    var cs := pts + [last];
    ProgressTextsNeverSettle(o.snapshots);
    SettlingCountConcat(pts, [last]);
    assert SettlingCount([last]) == 1;
    assert cs[..|cs| - 1] == pts;
  }

  /**
   * The promise settles once: after settlement no event, however many follow,
   * makes a second terminal callback, and the call stays settled.
   */
  lemma {:induction false} SettlesOnce(m: Machine, events: seq<Event>)
    requires m.settled
    ensures Run(m, events).final.settled
    ensures SettlingCount(Run(m, events).callbacks) == 0
    decreases |events|
  {
    if events != [] {
      var t := Next(m, events[0]);
      SettlesOnce(t.machine, events[1..]);
      var head := Emitted(t.callback);
      assert SettlingCount(head) == 0;
      SettlingCountConcat(head, Run(t.machine, events[1..]).callbacks);
    }
  }

  /**
   * Nothing guards `onProgress` against a settled promise: a snapshot with an
   * active step that arrives after "Success" replaces it in the slot.
   */
  lemma LateSnapshotOverwritesSuccess()
    ensures var late := Some([Step("Confirm", Some([StepItem(Complete), StepItem(Incomplete), StepItem(Incomplete)]))]);
            var t := Run(Start, [Settle(Resolve), Progress(late)]);
            && t.final == Machine(InProgress("Confirm (2/3)"), true)
            && t.callbacks == [Callback("Success", true), Callback("Confirm (2/3)", false)]
  {
    var late := Some([Step("Confirm", Some([StepItem(Complete), StepItem(Incomplete), StepItem(Incomplete)]))]);
    ProgressExample();
    var m1 := Machine(Succeeded, true);
    assert Next(Start, Settle(Resolve)) == Transition(m1, Some(Callback("Success", true)));
    assert Next(m1, Progress(late)) == Transition(Machine(InProgress("Confirm (2/3)"), true), Some(Callback("Confirm (2/3)", false)));
    RunCons(Start, Settle(Resolve), [Progress(late)]);
    RunCons(m1, Progress(late), []);
  }

  /** The wallet's signer capability; its internals belong to the wallet library. */
  datatype Signer = Signer(address: string)

  datatype BuyOptions = BuyOptions(currency: Option<string>)

  /** The arguments handed to `buyToken`. */
  datatype BuyRequest = BuyRequest(tokens: seq<TokenRef>, expectedPrice: Option<real>, options: BuyOptions)

  /** What a successful (`true`-returning) call did: the request, if a client existed, and the callbacks. */
  datatype Invocation = Invocation(request: Option<BuyRequest>, callbacks: seq<Callback>, final: Machine)

  datatype SweepError = ReferenceError(message: string)

  /**
   * `sweepTokens`: without a signer it throws before touching the client;
   * otherwise it sets `options.currency` only for a non-empty override, calls
   * the client if one is configured (`getClient()?.` skips the call, and every
   * callback, when none is), and returns true.
   */
  function SweepTokens(sweepTotal: Option<real>, tokens: seq<TokenRef>, signer: Option<Signer>,
                       sweepCurrency: Option<string>, client: Option<BuyOracle>): (r: Result<Invocation, SweepError>)
    ensures r.Failure? <==> signer.None?
    ensures r.Failure? ==> r.error == ReferenceError("Missing a signer")
    ensures r.Success? ==> (r.value.request.Some? <==> client.Some?)
    ensures r.Success? && client.None? ==> r.value.callbacks == [] && r.value.final == Start
    ensures r.Success? && client.Some? ==>
              var req := r.value.request.value;
              && req.tokens == tokens
              && req.expectedPrice == sweepTotal
              && (req.options.currency.Some? <==> sweepCurrency.Some? && sweepCurrency.value != "")
              && (req.options.currency.Some? ==> req.options.currency == sweepCurrency)
    ensures r.Success? && client.Some? ==>
              EndsWithOneTerminal(Trace(r.value.final, r.value.callbacks), client.value.outcome)
    ensures r.Success? && client.Some? ==>
              var cs := r.value.callbacks;
              |cs| >= 1 && cs[..|cs| - 1] == ProgressTexts(client.value.snapshots)
  {
    if signer.None? then Failure(ReferenceError("Missing a signer"))
    else
      var options := if sweepCurrency.Some? && sweepCurrency.value != "" then BuyOptions(sweepCurrency) else BuyOptions(None);
      match client
      case None => Success(Invocation(None, [], Start))
      case Some(oracle) =>
        var trace := Run(Start, Events(oracle));
        RunOracle(oracle);
        assert Trace(trace.final, trace.callbacks) == trace;
        Success(Invocation(Some(BuyRequest(tokens, sweepTotal, options)), trace.callbacks, trace.final))
  }
}

=== FILE: feed.dfy ===
/**
 * Normalisation of the listings feed into the token shape the sweep page uses
 * (src/db.ts). The HTTP request itself is a parameter: the model starts from
 * the response's `ok` flag, its status and its already-decoded JSON body.
 */
module Feed {
  import opened Common
  import opened Types

  /** The literal part of the pattern `https://opensea\.io/assets/ethereum/(0x[a-fA-F0-9]{40})`. */
  const OpenSeaPrefix: string := "https://opensea.io/assets/ethereum/"
  /** "0x" and forty hex digits. */
  const AddressLength: nat := 42
  /** Length of every text the pattern matches. */
  const PatternLength: nat := 77

  predicate IsHexDigit(c: char)
  {
    ('0' <= c <= '9') || ('a' <= c <= 'f') || ('A' <= c <= 'F')
  }

  /** The capture group `0x[a-fA-F0-9]{40}`: lower-case "x", hex digits of either case. */
  predicate IsAddress(s: string)
  {
    && |s| == AddressLength
    && s[0] == '0' && s[1] == 'x'
    && forall j :: 2 <= j < AddressLength ==> IsHexDigit(s[j])
  }

  /** The whole pattern matches the text of `url` that starts at position `i`. */
  predicate MatchesAt(url: string, i: nat)
  {
    && i + PatternLength <= |url|
    && url[i..i + |OpenSeaPrefix|] == OpenSeaPrefix
    && IsAddress(url[i + |OpenSeaPrefix|..i + PatternLength])
  }

  /**
   * The unanchored search a regular-expression engine performs: try each start
   * position from `i` on and stop at the first that matches.
   */
  function FindFrom(url: string, i: nat): (r: Option<nat>)
    requires i <= |url|
    ensures r.Some? ==> i <= r.value && MatchesAt(url, r.value)
    ensures r.Some? ==> forall k :: i <= k < r.value ==> !MatchesAt(url, k)
    ensures r.None? ==> forall k :: i <= k ==> !MatchesAt(url, k)
    decreases |url| - i
  {
    if i + PatternLength > |url| then None
    else if MatchesAt(url, i) then Some(i)
    else FindFrom(url, i + 1)
  }

  /**
   * `extractContractAddress`: the capture group of the leftmost match, or
   * `null` when the link contains no match anywhere.
   */
  function ExtractContractAddress(url: string): (r: Option<string>)
    ensures r.Some? <==> exists k: nat :: MatchesAt(url, k)
    ensures r.Some? ==> IsAddress(r.value)
    ensures r.Some? ==>
              exists k: nat :: && MatchesAt(url, k)
                               && r.value == url[k + |OpenSeaPrefix|..k + PatternLength]
                               && forall j :: 0 <= j < k ==> !MatchesAt(url, j)
  {
    match FindFrom(url, 0)
    case None => None
    case Some(k) => Some(url[k + |OpenSeaPrefix|..k + PatternLength])
  }

  /** Whatever follows a match in the link cannot change which address is found. */
  lemma ExtractIgnoresTrailingText(url: string, suffix: string)
    requires ExtractContractAddress(url).Some?
    ensures ExtractContractAddress(url + suffix) == ExtractContractAddress(url)
  {
    var u := url + suffix;
    var k := FindFrom(url, 0).value;
    assert u[k + |OpenSeaPrefix|..k + PatternLength] == url[k + |OpenSeaPrefix|..k + PatternLength];
    assert MatchesAt(u, k) by {
      assert u[k..k + |OpenSeaPrefix|] == url[k..k + |OpenSeaPrefix|];
    }
    forall j | 0 <= j < k
      ensures !MatchesAt(u, j)
    {
      assert u[j..j + |OpenSeaPrefix|] == url[j..j + |OpenSeaPrefix|];
      assert u[j + |OpenSeaPrefix|..j + PatternLength] == url[j + |OpenSeaPrefix|..j + PatternLength];
      assert !MatchesAt(url, j);
    }
    ExtractAtLeftmost(u, k);
  }

  /** When `k` is the leftmost match, the extracted address is the one at `k`. */
  lemma ExtractAtLeftmost(url: string, k: nat)
    requires MatchesAt(url, k)
    requires forall j :: 0 <= j < k ==> !MatchesAt(url, j)
    ensures ExtractContractAddress(url) == Some(url[k + |OpenSeaPrefix|..k + PatternLength])
  {
    assert FindFrom(url, 0) == Some(k);
  }

  /** The collection address the sweep page starts with. */
  const ExampleAddress: string := "0xf5de760f2e916647fd766b4ad9e85ff943ce3a2b"

  lemma ExampleAddressWellFormed()
    ensures IsAddress(ExampleAddress)
  {
    forall j | 2 <= j < AddressLength
      ensures IsHexDigit(ExampleAddress[j])
    {
    }
  }

  /** A link with text before and after a well-formed OpenSea asset URL still yields its address. */
  lemma ExtractExample()
    ensures ExtractContractAddress("see " + OpenSeaPrefix + ExampleAddress + "/42") == Some(ExampleAddress)
  {
    var url := "see " + OpenSeaPrefix + ExampleAddress + "/42";
    assert url[4..4 + |OpenSeaPrefix|] == OpenSeaPrefix;
    assert url[4 + |OpenSeaPrefix|..4 + PatternLength] == ExampleAddress;
    ExampleAddressWellFormed();
    forall j | 0 <= j < 4
      ensures !MatchesAt(url, j)
    {
      assert url[j..j + |OpenSeaPrefix|][4] == url[j + 4] != OpenSeaPrefix[4];
    }
    ExtractAtLeftmost(url, 4);
  }

  /** The fetch response: the `ok` flag, the status code and the decoded JSON body. */
  datatype Response = Response(ok: bool, status: int, listings: seq<Listing>)

  /**
   * The token built for one listing: the decimal text of the numeric token id,
   * the contract address found in the link, and a price in an unnamed currency
   * whose contract is the empty string.
   */
  function ListingToToken(l: Listing): (t: Token)
    ensures t.tokenId != "" && (l.token >= 0 ==> AllDigits(t.tokenId) && ParseNat(t.tokenId) == l.token)
    ensures l.token >= 0 ==> (t.tokenId[0] == '0' ==> l.token == 0 && t.tokenId == "0")
    ensures l.token < 0 ==> && t.tokenId[0] == '-' && AllDigits(t.tokenId[1..])
                            && ParseNat(t.tokenId[1..]) == -l.token
                            && t.tokenId[1] != '0'
    ensures t.contract == ExtractContractAddress(l.link)
    ensures t.contract.Some? <==> exists k: nat :: MatchesAt(l.link, k)
    ensures t.contract.Some? ==> IsAddress(t.contract.value)
    ensures t.price.decimal == l.price && t.price.currency.symbol == l.coin
    ensures t.price.currency.contract == "" && t.price.currency.contract != AddressZero
  {
    var n: nat := if l.token >= 0 then l.token else -l.token;
    NatToStringRoundTrip(n);
    Token(IntToString(l.token), ExtractContractAddress(l.link),
          Price(Currency("", "", l.coin, 0), l.price))
  }

  /**
   * Distinct listing numbers give distinct token ids, so the selection, which
   * is keyed on ids, never confuses two listings of different numbers.
   */
  lemma ListingIdsInjective(a: Listing, b: Listing)
    requires ListingToToken(a).tokenId == ListingToToken(b).tokenId
    ensures a.token == b.token
  {
    assert ListingToToken(a).tokenId == IntToString(a.token);
    assert ListingToToken(b).tokenId == IntToString(b.token);
    IntToStringInjective(a.token, b.token);
  }

  /**
   * `getAllListings`: a non-ok response throws an error naming the status;
   * otherwise every listing becomes one token, in the same order.
   */
  function GetAllListings(resp: Response): (r: Result<seq<Token>, string>)
    ensures r.Failure? <==> !resp.ok
    ensures r.Failure? ==> r.error == "HTTP error! status: " + IntToString(resp.status)
    ensures r.Success? ==> |r.value| == |resp.listings|
    ensures r.Success? ==> forall i :: 0 <= i < |r.value| ==> r.value[i] == ListingToToken(resp.listings[i])
  {
    if !resp.ok then Failure("HTTP error! status: " + IntToString(resp.status))
    else Success(seq(|resp.listings|, i requires 0 <= i < |resp.listings| => ListingToToken(resp.listings[i])))
  }

  /** Every token the feed produces is priced in the empty-contract currency. */
  lemma FeedCurrenciesEmpty(resp: Response, t: Token)
    requires GetAllListings(resp).Success? && t in GetAllListings(resp).value
    ensures t.price.currency.contract == "" && t.tokenId != ""
  {
  }
}

=== FILE: feed_to_sweep.dfy ===
/**
 * What the sweep logic can rely on when its tokens come from the listings feed
 * (src/db.ts feeding src/sweep.tsx).
 */
module FeedToSweep {
  import opened Common
  import opened Types
  import opened Feed
  import opened Selection
  import opened Executor

  /**
   * Every feed token's currency contract is the empty string, so a selection
   * of feed tokens is never mixed (the price guard is always sent), never
   * contains the zero address (the native entry is always appended), and
   * records every selected token's id.
   */
  lemma FeedSelectionNeverMixed(resp: Response, selected: seq<Token>)
    requires GetAllListings(resp).Success?
    requires forall i :: 0 <= i < |selected| ==> selected[i] in GetAllListings(resp).value
    ensures !IsMixed(selected)
    ensures |CurrencyOptions(selected)| == |selected| + 1
    ensures |SelectedIds(selected)| == |selected|
  {
    forall i | 0 <= i < |selected|
      ensures CurrencyContract(selected[i]) == "" && selected[i].tokenId != ""
    {
      FeedCurrenciesEmpty(resp, selected[i]);
    }
  }

  /**
   * Picking a feed token's entry in the currency picker selects the empty
   * contract, which is falsy: the purchase goes out without a currency override.
   */
  lemma FeedCurrencyChoiceIgnored(resp: Response, selected: seq<Token>, i: nat, expectedPrice: Option<real>,
                                  tokens: seq<TokenRef>, signer: Signer, client: BuyOracle)
    requires GetAllListings(resp).Success?
    requires forall k :: 0 <= k < |selected| ==> selected[k] in GetAllListings(resp).value
    requires i < |selected|
    ensures var choice := CurrencyOptions(selected)[i].contract;
            var r := SweepTokens(expectedPrice, tokens, Some(signer), Some(choice), Some(client));
            r.Success? && r.value.request.value.options.currency == None
  {
    FeedCurrenciesEmpty(resp, selected[i]);
  }
}

=== FILE: handlers.dfy ===
/**
 * The two click handlers of the sweep page (src/sweep.tsx) that start a
 * purchase: the Sweep button for the whole selection and the per-row Buy
 * button for one token. The wallet's connection state, signer and active
 * chain are parameters; connecting the wallet is reported, not performed.
 */
module Handlers {
  import opened Common
  import opened Types
  import opened Selection
  import opened Executor

  /** What the wallet library reports to the page. */
  datatype Wallet = Wallet(isConnected: bool, signer: Option<Signer>, chainId: Option<int>)

  const Mainnet: int := 1

  const WrongNetworkAlert: string := "You are connected to the wrong network. Please use the Mainnet network."

  datatype SweepClickResult =
    /** The button is disabled while nothing is selected, so no click happens. */
    | Disabled
    /** The handler alerts and returns before anything else. */
    | WrongNetwork(alert: string)
    /**
     * The handler went ahead: it asked the wallet to connect first when it was
     * not connected, computed the price guard, and called `sweepTokens` with
     * the signer it already held.
     */
    | Started(connectFirst: bool, expectedPrice: Option<real>, tokens: seq<TokenRef>,
              outcome: Result<Invocation, SweepError>)

  /**
   * The Sweep button. The price guard is the sweep total over the live list,
   * dropped when the retained selection mixes currency contracts; the token
   * list sent is built from the retained selection.
   */
  method SweepClick(wallet: Wallet, live: seq<Token>, selected: seq<Token>,
                    sweepCurrency: Option<string>, client: Option<BuyOracle>) returns (r: SweepClickResult)
    ensures r.Disabled? <==> |selected| == 0
    ensures r.WrongNetwork? <==> |selected| > 0 && wallet.chainId != Some(Mainnet)
    ensures r.WrongNetwork? ==> r.alert == WrongNetworkAlert
    ensures r.Started? ==> wallet.chainId == Some(Mainnet) && r.connectFirst == !wallet.isConnected
    ensures r.Started? ==> |r.tokens| == |selected| && forall i :: 0 <= i < |selected| ==> r.tokens[i] == RefOf(selected[i])
    ensures r.Started? ==> (r.expectedPrice.None? <==> IsMixed(selected))
    ensures r.Started? && r.expectedPrice.Some? ==> r.expectedPrice.value == SelectedSum(live, SelectedIds(selected))
    ensures r.Started? ==> r.outcome == SweepTokens(r.expectedPrice, r.tokens, wallet.signer, sweepCurrency, client)
  {
    if |selected| == 0 {
      return Disabled;
    }
    if wallet.chainId != Some(Mainnet) {
      return WrongNetwork(WrongNetworkAlert);
    }
    var sweepTotal := SweepTotal(live, SelectedIds(selected));
    var mixed, tokens := MixedCurrencies(selected);
    var expectedPrice := if mixed then None else Some(sweepTotal);
    var outcome := SweepTokens(expectedPrice, tokens, wallet.signer, sweepCurrency, client);
    r := Started(!wallet.isConnected, expectedPrice, tokens, outcome);
  }

  datatype BuyClickResult =
    /** Not connected: the handler only asks the wallet to connect. */
    | Connect
    /** Connected: the row's checkbox was toggled and a one-token purchase started. */
    | Bought(selection: seq<Token>, ids: seq<string>, tokens: seq<TokenRef>, expectedPrice: Option<real>,
             outcome: Result<Invocation, SweepError>)

  /**
   * `handleBuyClick`: toggles the token (so an already selected token becomes
   * deselected) and buys it alone, guarded by its own price. Unlike the Sweep
   * button it neither checks the chain nor looks at currencies.
   */
  method HandleBuyClick(wallet: Wallet, selected: seq<Token>, token: Token,
                        sweepCurrency: Option<string>, client: Option<BuyOracle>) returns (r: BuyClickResult)
    ensures r.Connect? <==> !wallet.isConnected
    ensures r.Bought? ==> r.selection == Toggle(selected, token) && r.ids == SelectedIds(r.selection)
    ensures r.Bought? ==> (HasId(r.selection, token.tokenId) <==> !HasId(selected, token.tokenId))
    ensures r.Bought? ==> r.tokens == [RefOf(token)] && r.expectedPrice == Some(token.price.decimal)
    ensures r.Bought? ==> r.outcome == SweepTokens(r.expectedPrice, r.tokens, wallet.signer, sweepCurrency, client)
  {
    if !wallet.isConnected {
      return Connect;
    }
    var updated, ids := HandleOnChange(selected, token);
    var tokens := [RefOf(token)];
    var expectedPrice := Some(token.price.decimal);
    var outcome := SweepTokens(expectedPrice, tokens, wallet.signer, sweepCurrency, client);
    r := Bought(updated, ids, tokens, expectedPrice, outcome);
  }

  /**
   * The total is taken over the live list but the tokens sent come from the
   * retained selection: once a refresh has dropped every selected token, a
   * single-currency sweep of them is sent with a price guard of zero.
   */
  lemma StaleSelectionZeroGuard(live: seq<Token>, selected: seq<Token>)
    requires forall i :: 0 <= i < |live| ==> !HasId(selected, live[i].tokenId)
    ensures SelectedSum(live, SelectedIds(selected)) == 0.0
  {
    SelectedSumStale(live, SelectedIds(selected));
  }
}

=== FILE: selection.dfy ===
/**
 * The selection state of the sweep page (src/sweep.tsx): the checkbox toggle
 * that maintains `selectedTokens` and `selectedTokenIds`, the sweep total
 * recomputed from the live token list, the currency options offered for the
 * purchase, and the mixed-currency test that decides the price guard.
 */
module Selection {
  import opened Common
  import opened Types

  /** Some entry of `s` carries the token id `id`. */
  predicate HasId(s: seq<Token>, id: string)
  {
    exists i :: 0 <= i < |s| && s[i].tokenId == id
  }

  /** How many entries of `s` carry the token id `id`. */
  function CountId(s: seq<Token>, id: string): nat
  {
    if s == [] then 0 else (if s[0].tokenId == id then 1 else 0) + CountId(s[1..], id)
  }

  /** `selectedTokens.filter(t => t.tokenId !== id)`. */
  function RemoveId(s: seq<Token>, id: string): (r: seq<Token>)
    ensures !HasId(r, id)
    ensures forall t :: t in r <==> t in s && t.tokenId != id
    ensures |r| + CountId(s, id) == |s|
  {
    if s == [] then []
    else (if s[0].tokenId == id then [] else [s[0]]) + RemoveId(s[1..], id)
  }

  /** Removal works piecewise, so the entries it keeps stay in their original order. */
  lemma {:induction false} RemoveIdConcat(a: seq<Token>, b: seq<Token>, id: string)
    ensures RemoveId(a + b, id) == RemoveId(a, id) + RemoveId(b, id)
  {
    if a == [] {
      assert a + b == b;
    } else {
      assert (a + b)[0] == a[0];
      assert (a + b)[1..] == a[1..] + b;
      RemoveIdConcat(a[1..], b, id);
    }
  }

  /** Removing an id nobody carries changes nothing. */
  lemma {:induction false} RemoveIdAbsent(s: seq<Token>, id: string)
    requires !HasId(s, id)
    ensures RemoveId(s, id) == s
  {
    if s != [] {
      assert !HasId(s[1..], id) by {
        forall i | 0 <= i < |s[1..]|
          ensures s[1..][i].tokenId != id
        {
          assert s[1..][i] == s[i + 1];
        }
      }
      RemoveIdAbsent(s[1..], id);
    }
  }

  /**
   * The selection after `handleOnChange(token)`: when some selected entry has
   * the token's id, every such entry goes; otherwise the token is appended.
   */
  function Toggle(s: seq<Token>, token: Token): (r: seq<Token>)
    ensures HasId(s, token.tokenId) ==> r == RemoveId(s, token.tokenId)
    ensures !HasId(s, token.tokenId) ==> r == s + [token]
    ensures HasId(r, token.tokenId) <==> !HasId(s, token.tokenId)
    ensures forall id :: id != token.tokenId ==> (HasId(r, id) <==> HasId(s, id))
  {
    if HasId(s, token.tokenId) then RemoveId(s, token.tokenId)
    else
      var r := s + [token];
      assert r[|s|].tokenId == token.tokenId;
      assert forall id :: HasId(s, id) ==> HasId(r, id) by {
        forall id, i | 0 <= i < |s| && s[i].tokenId == id
          ensures HasId(r, id)
        {
          assert r[i] == s[i];
        }
      }
      r
  }

  /** Toggling an unselected token twice restores the selection exactly. */
  lemma ToggleTwice(s: seq<Token>, token: Token)
    requires !HasId(s, token.tokenId)
    ensures Toggle(Toggle(s, token), token) == s
  {
    RemoveIdConcat(s, [token], token.tokenId);
    RemoveIdAbsent(s, token.tokenId);
    assert RemoveId([token], token.tokenId) == [];
  }

  /** One toggle flips the presence of the toggled id and of no other. */
  lemma ToggleFlips(s: seq<Token>, token: Token, id: string)
    ensures HasId(Toggle(s, token), id) <==> (HasId(s, id) != (token.tokenId == id))
  {
  }

  /** No two entries of `s` share a token id. */
  predicate DistinctIds(s: seq<Token>)
  {
    forall i, j :: 0 <= i < j < |s| ==> s[i].tokenId != s[j].tokenId
  }

  /** Putting an entry whose id nobody else carries in front keeps ids distinct. */
  lemma DistinctCons(x: Token, rest: seq<Token>)
    requires DistinctIds(rest)
    requires forall t :: t in rest ==> t.tokenId != x.tokenId
    ensures DistinctIds([x] + rest)
  {
    var r := [x] + rest;
    forall i, j | 0 <= i < j < |r|
      ensures r[i].tokenId != r[j].tokenId
    {
      assert r[j] == rest[j - 1];
      if i > 0 {
        assert r[i] == rest[i - 1];
      }
    }
  }

  /** Filtering keeps a selection free of repeated ids. */
  lemma {:induction false} RemoveIdKeepsDistinct(s: seq<Token>, id: string)
    requires DistinctIds(s)
    ensures DistinctIds(RemoveId(s, id))
  {
    if s != [] {
      var tail := s[1..];
      assert DistinctIds(tail) by {
        forall i, j | 0 <= i < j < |tail|
          ensures tail[i].tokenId != tail[j].tokenId
        {
          assert tail[i] == s[i + 1] && tail[j] == s[j + 1];
        }
      }
      RemoveIdKeepsDistinct(tail, id);
      var rest := RemoveId(tail, id);
      if s[0].tokenId != id {
        assert forall t :: t in rest ==> t.tokenId != s[0].tokenId by {
          forall t | t in rest
            ensures t.tokenId != s[0].tokenId
          {
            var k :| 0 <= k < |tail| && tail[k] == t;
            assert s[k + 1] == t;
          }
        }
        DistinctCons(s[0], rest);
      }
    }
  }

  /** The toggle never lets two selected entries share an id. */
  lemma ToggleKeepsDistinct(s: seq<Token>, token: Token)
    requires DistinctIds(s)
    ensures DistinctIds(Toggle(s, token))
  {
    if HasId(s, token.tokenId) {
      RemoveIdKeepsDistinct(s, token.tokenId);
    } else {
      var r := s + [token];
      forall i, j | 0 <= i < j < |r|
        ensures r[i].tokenId != r[j].tokenId
      {
        assert r[i] == s[i];
        if j < |s| {
          assert r[j] == s[j];
        }
      }
    }
  }

  /** The selection after toggling each token of `ts` in turn, starting from `s`. */
  function ToggleAll(s: seq<Token>, ts: seq<Token>): seq<Token>
    decreases |ts|
  {
    if ts == [] then s else ToggleAll(Toggle(s, ts[0]), ts[1..])
  }

  /** Whether `id` is present after the toggles `ts`, given whether it was present before. */
  function PresentAfter(present: bool, ts: seq<Token>, id: string): bool
    decreases |ts|
  {
    if ts == [] then present else PresentAfter(present != (ts[0].tokenId == id), ts[1..], id)
  }

  lemma {:induction false} ToggleAllTracksPresence(s: seq<Token>, ts: seq<Token>, id: string)
    ensures HasId(ToggleAll(s, ts), id) == PresentAfter(HasId(s, id), ts, id)
    decreases |ts|
  {
    if ts != [] {
      var next := Toggle(s, ts[0]);
      ToggleFlips(s, ts[0], id);
      ToggleAllTracksPresence(next, ts[1..], id);
    }
  }

  lemma {:induction false} PresentAfterParity(present: bool, ts: seq<Token>, id: string)
    ensures PresentAfter(present, ts, id) == (present != (CountId(ts, id) % 2 == 1))
    decreases |ts|
  {
    if ts != [] {
      var hit := ts[0].tokenId == id;
      PresentAfterParity(present != hit, ts[1..], id);
      var c := CountId(ts[1..], id);
      assert CountId(ts, id) == c + (if hit then 1 else 0);
    }
  }

  /**
   * After a sequence of toggles an id is selected exactly when it was selected
   * at the start and toggled an even number of times, or was not and was
   * toggled an odd number of times.
   */
  lemma ToggleParity(s: seq<Token>, ts: seq<Token>, id: string)
    ensures HasId(ToggleAll(s, ts), id) <==> (HasId(s, id) != (CountId(ts, id) % 2 == 1))
  {
    ToggleAllTracksPresence(s, ts, id);
    PresentAfterParity(HasId(s, id), ts, id);
  }

  /** From an empty selection, the selected ids are exactly those toggled an odd number of times. */
  lemma ToggleFromEmpty(ts: seq<Token>, id: string)
    ensures HasId(ToggleAll([], ts), id) <==> CountId(ts, id) % 2 == 1
  {
    ToggleParity([], ts, id);
  }

  /**
   * `selectedTokenIds`: the non-empty token ids of a selection, in selection
   * order (an empty id is falsy and skipped).
   */
  function SelectedIds(s: seq<Token>): (ids: seq<string>)
    ensures |ids| <= |s|
    ensures (forall i :: 0 <= i < |s| ==> s[i].tokenId != "") ==> |ids| == |s|
    ensures forall id :: id in ids <==> id != "" && HasId(s, id)
  {
    if s == [] then []
    else
      var init := s[..|s| - 1];
      var last := s[|s| - 1];
      assert forall id :: HasId(s, id) <==> HasId(init, id) || last.tokenId == id by {
        forall id | HasId(s, id)
          ensures HasId(init, id) || last.tokenId == id
        {
          var i :| 0 <= i < |s| && s[i].tokenId == id;
          if i < |s| - 1 { assert init[i] == s[i]; }
        }
        forall id | HasId(init, id)
          ensures HasId(s, id)
        {
          var i :| 0 <= i < |init| && init[i].tokenId == id;
          assert s[i] == init[i];
        }
      }
      SelectedIds(init) + (if last.tokenId != "" then [last.tokenId] else [])
  }

  /**
   * `handleOnChange`: the new selection is the toggle of the old one, and the
   * id list is rebuilt from it entry by entry.
   */
  method HandleOnChange(selected: seq<Token>, token: Token) returns (updated: seq<Token>, ids: seq<string>)
    ensures updated == Toggle(selected, token)
    ensures ids == SelectedIds(updated)
    ensures token.tokenId != "" ==> (token.tokenId in ids <==> !HasId(selected, token.tokenId))
  {
    updated := Toggle(selected, token);
    ids := [];
    var i := 0;
    while i < |updated|
      invariant 0 <= i <= |updated|
      invariant ids == SelectedIds(updated[..i])
    {
      var prefix := updated[..i + 1];
      assert prefix[..i] == updated[..i] && prefix[i] == updated[i];
      assert SelectedIds(prefix) == SelectedIds(updated[..i]) + (if updated[i].tokenId != "" then [updated[i].tokenId] else []);
      if updated[i].tokenId != "" {
        ids := ids + [updated[i].tokenId];
      }
      i := i + 1;
    }
    assert updated[..i] == updated;
  }

  /**
   * The sum of the prices of the live tokens whose id is selected, each live
   * entry counted once per occurrence in the live list.
   */
  function SelectedSum(live: seq<Token>, ids: seq<string>): real
  {
    if live == [] then 0.0
    else (if live[0].tokenId in ids then live[0].price.decimal else 0.0) + SelectedSum(live[1..], ids)
  }

  lemma {:induction false} SelectedSumConcat(a: seq<Token>, b: seq<Token>, ids: seq<string>)
    ensures SelectedSum(a + b, ids) == SelectedSum(a, ids) + SelectedSum(b, ids)
  {
    if a == [] {
      assert a + b == b;
    } else {
      assert (a + b)[0] == a[0];
      assert (a + b)[1..] == a[1..] + b;
      SelectedSumConcat(a[1..], b, ids);
    }
  }

  /**
   * The sweep-total effect: a left-to-right `reduce` over the live list that
   * adds a token's price when its id is selected and its price is truthy
   * (non-zero).
   */
  method SweepTotal(live: seq<Token>, ids: seq<string>) returns (total: real)
    ensures total == SelectedSum(live, ids)
  {
    total := 0.0;
    var i := 0;
    while i < |live|
      invariant 0 <= i <= |live|
      invariant total == SelectedSum(live[..i], ids)
    {
      var token := live[i];
      if token.tokenId in ids && token.price.decimal != 0.0 {
        total := total + token.price.decimal;
      }
      assert live[..i + 1] == live[..i] + [token];
      SelectedSumConcat(live[..i], [token], ids);
      i := i + 1;
    }
    assert live[..i] == live;
  }

  /** An empty selection sums to zero. */
  lemma {:induction false} SelectedSumEmpty(live: seq<Token>)
    ensures SelectedSum(live, []) == 0.0
  {
    if live != [] {
      SelectedSumEmpty(live[1..]);
    }
  }

  /** Selecting an id that no live token carries does not change the total. */
  lemma {:induction false} SelectedSumIgnoresUnlisted(live: seq<Token>, ids: seq<string>, id: string)
    requires !HasId(live, id)
    ensures SelectedSum(live, ids + [id]) == SelectedSum(live, ids)
  {
    if live != [] {
      assert live[0].tokenId != id;
      assert !HasId(live[1..], id) by {
        forall i | 0 <= i < |live[1..]|
          ensures live[1..][i].tokenId != id
        {
          assert live[1..][i] == live[i + 1];
        }
      }
      SelectedSumIgnoresUnlisted(live[1..], ids, id);
    }
  }

  /** When no live token carries a selected id, the total is zero however many tokens are selected. */
  lemma {:induction false} SelectedSumStale(live: seq<Token>, ids: seq<string>)
    requires forall i :: 0 <= i < |live| ==> live[i].tokenId !in ids
    ensures SelectedSum(live, ids) == 0.0
  {
    if live != [] {
      SelectedSumStale(live[1..], ids);
    }
  }

  /**
   * The currency options: the retained selected tokens' currencies in
   * selection order, not deduplicated, followed by the native-currency entry
   * only if no option already has the zero-address contract.
   */
  function CurrencyOptions(selected: seq<Token>): (r: seq<Currency>)
    ensures exists i :: 0 <= i < |r| && r[i].contract == AddressZero
    ensures |r| == |selected| || |r| == |selected| + 1
    ensures forall i :: 0 <= i < |selected| ==> r[i] == selected[i].price.currency
    ensures |r| == |selected| + 1 <==> forall i :: 0 <= i < |selected| ==> CurrencyContract(selected[i]) != AddressZero
    ensures |r| == |selected| + 1 ==> r[|selected|] == Ether
  {
    var currencies := seq(|selected|, i requires 0 <= i < |selected| => selected[i].price.currency);
    if exists i | 0 <= i < |currencies| :: currencies[i].contract == AddressZero then currencies
    else
      var r := currencies + [Ether];
      assert r[|currencies|].contract == AddressZero;
      r
  }

  /** Some selected token is priced in a different currency contract from the first one. */
  predicate IsMixed(selected: seq<Token>)
  {
    exists i | 0 <= i < |selected| :: CurrencyContract(selected[i]) != CurrencyContract(selected[0])
  }

  /** Being mixed does not depend on which token was selected first: two tokens differ. */
  lemma MixedIffTwoContracts(selected: seq<Token>)
    ensures IsMixed(selected) <==>
            exists i, j :: 0 <= i < |selected| && 0 <= j < |selected| && CurrencyContract(selected[i]) != CurrencyContract(selected[j])
  {
  }

  /**
   * The Sweep button's pass over the selection: it builds the `{tokenId,
   * contract}` list and sets the mixed flag once some token's currency contract
   * differs from the first token's; once set, the flag stays set.
   */
  method MixedCurrencies(selected: seq<Token>) returns (mixed: bool, refs: seq<TokenRef>)
    requires |selected| > 0
    ensures mixed <==> IsMixed(selected)
    ensures |refs| == |selected|
    ensures forall i :: 0 <= i < |selected| ==> refs[i] == RefOf(selected[i])
  {
    var firstTokenCurrency := CurrencyContract(selected[0]);
    mixed := false;
    refs := [];
    var i := 0;
    while i < |selected|
      invariant 0 <= i <= |selected|
      invariant mixed <==> exists j :: 0 <= j < i && CurrencyContract(selected[j]) != firstTokenCurrency
      invariant |refs| == i
      invariant forall j :: 0 <= j < i ==> refs[j] == RefOf(selected[j])
    {
      if !mixed {
        mixed := CurrencyContract(selected[i]) != firstTokenCurrency;
      }
      refs := refs + [RefOf(selected[i])];
      i := i + 1;
    }
  }
}

=== FILE: types.dfy ===
/**
 * The records the sweep page and the listings feed exchange, keeping only the
 * fields the modelled logic reads or writes.
 */
module Types {
  import opened Common

  /** `token.market.floorAsk.price.currency`. */
  datatype Currency = Currency(contract: string, name: string, symbol: string, decimals: int)

  /** `token.market.floorAsk.price`: the listed amount (as a decimal) and its currency. */
  datatype Price = Price(currency: Currency, decimal: real)

  /**
   * One offer on the sweep page. `contract` is `null` when the feed could not
   * find a contract address in the listing's link.
   */
  datatype Token = Token(tokenId: string, contract: Option<string>, price: Price)

  /** The `{tokenId, contract}` pair the purchase capability is given per token. */
  datatype TokenRef = TokenRef(tokenId: string, contract: Option<string>)

  /**
   * A raw record of the listings feed, with the fields the token mapping reads
   * (`token`, `price`, `coin`, `link`) and those the table formats (`listdate`,
   * `selleraddress`, `sellername`, which `Display` takes as plain values).
   * `listdate` is the timestamp after parsing, in milliseconds since the epoch,
   * or `None` when the text is not a valid date.
   */
  datatype Listing = Listing(
    listdate: Option<int>,
    selleraddress: string,
    sellername: string,
    token: int,
    price: real,
    coin: string,
    link: string)

  /** ethers' `constants.AddressZero`, the sentinel for the native currency. */
  const AddressZero: string := "0x0000000000000000000000000000000000000000"

  /** The native-currency entry the currency picker always offers. */
  const Ether: Currency := Currency(AddressZero, "Ether", "ETH", 18)

  /** The `{tokenId, contract}` pair a purchase request names a token by. */
  function RefOf(t: Token): TokenRef
  {
    TokenRef(t.tokenId, t.contract)
  }

  function CurrencyContract(t: Token): string
  {
    t.price.currency.contract
  }
}
